=== FILE: README.md ===
# Wernicke vocabulary store and submission records, in Dafny

This project models the stateful core of Wernicke, a language-test grading application, in three parts:

- **The vocabulary back end** (`word_store.dfy`, module `WordStore`). This is a small HTTP service. It keeps two remote sheets as tables of rows, where each row is a list of strings read over columns A:C:
  - The user sheet holds rows `[email, "", userId]`. `GetOrCreateUserId` scans it for an email. It returns the id of the first matching row, or appends a new row with a fresh 8-character alphanumeric id.
  - The word sheet holds rows `["", userId, word]`. `GetWords` lists column C of the rows that belong to a user. `ModifySheetAdd` appends a row. `ModifySheetDelete` structurally deletes the first row matching (user, word), so every later row moves up by one.
  - The sheet does not hand back trailing empty cells or trailing empty rows. `StoredRow` is an appended row as the next read sees it, and `Appended` is the table after an append. An added empty word reads back as `["", userId]`, and an all-empty row adds nothing.
  - Both sheets are fields of the class `Backend`. Its methods carry the same scan loops as the service and state the new table exactly.
  - The HTTP routes (`GetOrCreateUser`, `GetWords`, `AddWord`, `DeleteWord`) give the status codes and bodies the service answers.
- **The grading page's submission rules** (`submission.dfy`, module `Submission`). These are pure functions:
  - the Japanese/English pick;
  - the Eiken grade rule;
  - the choice of grading assistant;
  - the submitted record and its framework label;
  - appending the record to the submissions sheet;
  - dropping the sheet's all-empty rows.

  A submissions row is a `map<string, string>`. A column absent from the map is an empty (NaN) cell.
- **The "my history" section** (`history.dfy`, module `History`). It filters a user's submissions by email and then by the selected frameworks and sections. It drops the email column and builds the chart key `framework-section`. `XValues` numbers the rows of each key 1, 2, 3, …, using a dictionary counter loop.

`wrappers.dfy` holds the `Option` and `Result` datatypes.

The service reads row cells without length checks, and an index error there is an unhandled exception. The model makes that error explicit:
- `StoredUserId` gives the error for a user row shorter than three cells.
- `Readable` is the condition under which the word listing raises no error. Otherwise the route answers 500.

The model neither pads short rows nor forbids them with a precondition.

The listing returns only column C and fails on short rows. An added row has at most three cells. The service has no nickname or backfill operation.

The history section reads its columns by name and its score column by position. The model keeps the frame's column list beside its rows, and a missing column or a short column list gives the error the section raises.

## Model

| member | source | states |
|---|---|---|
| `WordStore.FindUser` | flask_backend/flask_backend.py:45-48 | the index of the first user row with a column A equal to the email; None exactly when no row has it |
| `WordStore.FindUserAppendFound` | flask_backend/flask_backend.py:46-48 | once an email is found, appending any row leaves the lookup's answer unchanged |
| `WordStore.FindUserAppendNew` | flask_backend/flask_backend.py:46-59 | after a miss appends `[email, "", id]`, the next lookup finds that last row and reads `id` from it |
| `WordStore.NewEmailKeepsDistinct` | flask_backend/flask_backend.py:50-58 | appending a user row only for an unseen email keeps every email in at most one row |
| `WordStore.MatchingWordsAppend` | flask_backend/flask_backend.py:80-84 | the listing of two concatenated tables is the two listings concatenated, so the listing keeps table order |
| `WordStore.MatchingWordsMembers` | flask_backend/flask_backend.py:80-84 | a word is listed for a user exactly when some row holds that user in column B and the word in column C |
| `WordStore.MatchingWordsLength` | flask_backend/flask_backend.py:80-84 | the listing has one entry per row whose column B is the user |
| `WordStore.FindWord` | flask_backend/flask_backend.py:107-108 | the first row with more than two cells whose columns B and C are the user and the word; None exactly when there is none |
| `WordStore.RemoveAt` | flask_backend/flask_backend.py:109-122 | the structural delete of rows index..index+1: one row fewer, earlier rows in place, later rows shifted up by one |
| `WordStore.FindWordIffListed` | flask_backend/flask_backend.py:107-108 | a delete finds a row exactly when the user's listing contains the word |
| `WordStore.StoredRow` | flask_backend/flask_backend.py:93-100 | the row read back after an append is the longest prefix of the written row that does not end in an empty cell |
| `WordStore.Appended` | flask_backend/flask_backend.py:93-100 | the table after an append: the stored row follows the old rows, or the table is unchanged when every cell of the row is empty |
| `WordStore.StoredWordRow` | flask_backend/flask_backend.py:93-100 | an added word row reads back whole for a non-empty word and as `["", userId]` for an empty word; with an empty user id too, the table is unchanged |
| `WordStore.AddWordListing` | flask_backend/flask_backend.py:92-100 | after a non-empty word is added, the user's listing is the old listing followed by the word; every other user's listing is unchanged |
| `WordStore.FindWordAppendMiss` | flask_backend/flask_backend.py:107-108 | appending a row that does not match leaves the delete's lookup unchanged |
| `WordStore.EmptyWordBreaksListing` | flask_backend/flask_backend.py:80-84 | after an empty word is added for a non-empty user id, that user's listing raises an index error (500); with an empty user id the table is unchanged; a delete of the empty word never finds the added row |
| `WordStore.DeleteWordListing` | flask_backend/flask_backend.py:107-123 | after a delete, the user's listing loses exactly the first copy of the word; every other user's listing is unchanged, even when the deleting user's own listing cannot be read |
| `WordStore.DeleteRemovesOneCopy` | flask_backend/flask_backend.py:107-123 | a delete removes exactly one copy of the word from the multiset of the user's words |
| `WordStore.GuardedRemove` | flask_backend/flask_backend.py:107-123 | on every table, a delete removes exactly the first copy of the word from the user's words as line 108's guard reads the rows |
| `WordStore.DeleteOnlyCopyThenNotFound` | flask_backend/flask_backend.py:137-144 | on every table, deleting the only copy of a word (counted as line 108's guard reads the rows) makes a repeated delete find nothing, so the route answers 404 |
| `WordStore.Backend.GetOrCreateUserId` | flask_backend/flask_backend.py:40-59 | on a hit: the table is unchanged and the result is column C of the first matching row, or an index error for a shorter row; on a miss: exactly `[email, "", freshId]` is appended and `freshId` (8 letters or digits) is returned; distinct emails stay distinct |
| `WordStore.Backend.GetOrCreateUserIdTwice` | flask_backend/flask_backend.py:46-59 | two sequential calls for one email return the same result, and at most one row is appended |
| `WordStore.Backend.GetOrCreateUser` | flask_backend/flask_backend.py:61-69 | a missing or empty email answers 400 "Email is required" and changes nothing; otherwise 200 with the user id, or 500 on an index error |
| `WordStore.Backend.GetWords` | flask_backend/flask_backend.py:72-86 | 200 with column C of the user's rows in table order when every row is readable; 500 when a row lacks column B or a matching row lacks column C |
| `WordStore.Backend.ModifySheetAdd` | flask_backend/flask_backend.py:92-101 | the word table becomes the old table followed by exactly `["", userId, word]` as the sheet keeps it, without trailing empty cells, and unchanged when every cell is empty |
| `WordStore.Backend.ModifySheetDelete` | flask_backend/flask_backend.py:103-124 | returns true exactly when a matching row exists; then only the first such row is removed, otherwise the table is unchanged |
| `WordStore.Backend.AddWord` | flask_backend/flask_backend.py:128-135 | appends the row as the sheet keeps it; answers 200 with the reported cell count when it is nonzero, and 500 "error" otherwise |
| `WordStore.Backend.DeleteWord` | flask_backend/flask_backend.py:137-144 | 200 "success" after removing the first matching row; 404 "word not found" with the table unchanged |
| `Submission.Translate` | Home.py:38-39 | the Japanese text when the toggle is on, the English text otherwise |
| `Submission.SetTestConfiguration` | Home.py:55-76 | the grade is the slider's pick for "Eiken"/"英検"; for any other option, or none, it is "null"; the grade differs from "null" exactly for Eiken |
| `Submission.GetGptResponse` | Home.py:92-105 | for IELTS, asks to run an assistant and returns the speaking assistant's id for Speaking and the writing assistant's id otherwise; every other option gives assistant id "null", with "Under Preparation" for TOEFL/TOEIC/Eiken/英検 and "Please Provide Your Answer First" for no option |
| `Submission.TestFramework` | Home.py:166-170 | the label is present exactly when an option is; it starts with the option and is followed by the grade for Eiken and by nothing otherwise |
| `Submission.EikenLabelDeterminesGrade` | Home.py:166-170 | for one Eiken option, equal labels mean equal grades |
| `Submission.AddNewData` | Home.py:165-181 | the record holds the email, the input and the section unchanged, the framework label, and no other column |
| `Submission.UpdateGoogleSheets` | Home.py:184-187 | the existing rows, unchanged and in order, followed by exactly the new record |
| `Submission.DropAllMissing` | Home.py:161 | keeps exactly the rows with at least one non-empty cell |
| `Submission.DropAllMissingAppend` | Home.py:161 | dropping distributes over concatenation, so the kept rows stay in order |
| `Submission.DropAllMissingKeepsFull` | Home.py:161 | a sheet without all-empty rows is returned unchanged |
| `Submission.DropAllMissingIdempotent` | Home.py:161 | dropping twice equals dropping once |
| `Submission.SubmissionSurvivesDrop` | Home.py:186 | re-reading the updated sheet keeps the new record after the kept existing rows |
| `History.UserRows` | modules/my_history.py:7 | exactly the rows whose user_email cell is the session email |
| `History.UserRowsAppend` | modules/my_history.py:7 | the email filter distributes over concatenation and keeps sheet order |
| `History.SubmissionAppearsInHistory` | modules/my_history.py:7-12 | after a submission, its author's rows are the old ones plus the new record, so the count grows by one; other users' rows are unchanged |
| `History.DropEmailColumn` | modules/my_history.py:9 | the same number of rows, none with a user_email column, every other cell unchanged |
| `History.SelectRows` | modules/my_history.py:31 | a row is kept exactly when its framework is selected and its section is selected |
| `History.SelectRowsAppend` | modules/my_history.py:31 | the filter distributes over concatenation, so the kept rows keep their order and their repeats |
| `History.SelectKeepsCovered` | modules/my_history.py:31 | when every row's framework and section are selected, no row is dropped |
| `History.DefaultSelectionKeepsAll` | modules/my_history.py:16-31 | with the default selections (all unique values), the filtered rows equal the displayed rows |
| `History.FrameworkSection` | modules/my_history.py:45 | the key is framework + "-" + section when both cells are present, and empty otherwise |
| `History.KeyDeterminesPair` | modules/my_history.py:45 | for the sections Writing and Speaking, equal keys mean equal framework and equal section |
| `History.PlotKeys` | modules/my_history.py:45 | one key per filtered row, in row order |
| `History.CountsStep` | modules/my_history.py:57-63 | the counter update sets a key's first count to 1 and adds 1 later, so the dictionary keeps the count of every key seen so far |
| `History.XValues` | modules/my_history.py:50-64 | one x-value per row; the x-value of row i is the number of rows up to and including i with row i's key |
| `History.FirstOccurrenceIsOne` | modules/my_history.py:58-60 | a row's x-value is one more than the earlier count of its key, and is 1 exactly at the key's first row |
| `History.SameKeyDistinctX` | modules/my_history.py:53-67 | two rows with the same key have different x-values, increasing down the rows |
| `History.NextOccurrenceAddsOne` | modules/my_history.py:61-63 | the next row with the same key gets exactly one more than the previous one |
| `History.MissingColumn` | modules/my_history.py:7-34 | the first of user_email, test_framework, test_section, user_input and Wernicke_output, in the order the section reads them, that the frame lacks; None exactly when it has them all |
| `History.DisplayColumns` | modules/my_history.py:9 | the sheet's columns without user_email, one fewer per user_email column |
| `History.DisplayColumnsAppend` | modules/my_history.py:9 | dropping user_email distributes over concatenation, so the other columns keep their order and their repeats |
| `History.PlotColumns` | modules/my_history.py:42-45 | the displayed columns with framework_section added at the end unless already present |
| `History.ScoreColumnExists` | modules/my_history.py:47 | a sheet with one user_email column and at least seven columns has a column at position 5 of the plot frame |
| `History.SubmissionColumnsLackOutput` | modules/my_history.py:34 | a frame whose columns are all among the four a submission writes has a missing column, and the missing one is Wernicke_output exactly when it has all four |
| `History.HandleHistorySection` | modules/my_history.py:6-67 | a missing column is the key error of the first one the section reads; with a surviving row and fewer than six plot columns, the index error at position 5; in every other case the section succeeds, the submission count is the number of the user's rows, the displayed rows are those rows without email, the filtered rows follow the selections, and a plot exists exactly when a row survives, with its score column, keys and running-count x-values for every row |

## Left out

- Building the spreadsheet client and decoding credentials is I/O. Each sheet is an in-memory table held by `Backend`.
- The random draw of a new user id is left out. `GetOrCreateUserId` takes the drawn id as `freshId`, required to be 8 ASCII letters or digits.
- The delete request names sheet id 0. The model deletes from the word table it scanned. Which sheet id that table has is a deployment detail.
- Concurrent requests are left out. The service reads and then mutates with no isolation, so two interleaved requests can append two ids for one email or delete a shifted row. The model covers strictly sequential calls only.
- Parsing of the request JSON is left out. A missing `user_id` or `word` key in the add and delete routes raises a KeyError. A missing `user_id` query parameter in the listing compares every row against None. The model takes these fields as strings, and takes only the email as optional.
- The `updatedCells` count of an append is reported by the remote sheet. `AddWord` takes it as a parameter.
- The diagnostic print in the listing route is left out.
- The assistant thread, the polling loop with its sleeps, and the audio transcription are network calls and waiting. `GetGptResponse` states which assistant id it returns and what is shown, not what the assistant answers.
- AddWordListing: states the listing only for a non-empty word. An empty word reads back without column C, and `EmptyWordBreaksListing` states what the listing does then.
- GetGptResponse: the id it returns is not always the assistant that runs. The assistant is retrieved only when the session has no client yet, so every later run in the session uses the first assistant retrieved (Home.py:108-112, :124-127). Session state is not modelled.
- Streamlit widgets, layout, session state, metrics and charts are left out. The widget choices (toggle, select boxes, slider, multiselects) are parameters. The sheet reads and writes done through the connection are parameters and results.
- The pivot table, the line chart and the per-series average scores are left out. The averages are floating-point means. The chart pivot picks its score column by position. The model stops at the keys, the x-values and the name of the score column.
- MissingColumn: names one missing column. At modules/my_history.py:34 the error names both user_input and Wernicke_output when both are missing.
- The history section's column checks stop at the first error it raises. The frame's rows are maps, and a cell a row lacks is empty whatever the column list says.
- Dictionary keys for NaN: `XValues` treats every row with an empty framework or section as one key, None. In pandas, NaN keys of different rows may or may not be the same dictionary key.
- The same-day and seven-day filters, the admin page, the customer portals, the vocabulary review page and the duplicated page logic in `app.py` are not part of this model. They depend on the clock and on third-party services, or they repeat the code modelled here.

## Findings

| source | as written | input that shows it | evidently intended | confidence | as-written member | corrected member |
|---|---|---|---|---|---|---|
| flask_backend/flask_backend.py:83-84 | the listing reads `row[2]` of every row whose column B is the user, with no length check, while an add of an empty word leaves a two-cell row `["", userId]` | POST /add_word with `{"user_id": u, "word": ""}` for a non-empty u, then GET /get_words?user_id=u | the listing skips rows shorter than three cells, as the delete route does at line 108, so no add breaks the listing | not executed; rests on the sheet omitting trailing empty cells | `WordStore.EmptyWordBreaksListing` | `WordStore.GuardedAddListing` |

=== FILE: history.dfy ===
/**
 * The "my history" section: a signed-in user's past submissions, the
 * framework and section filters, and the x-axis of the progression chart,
 * which numbers the submissions of each framework-section pair 1, 2, 3, ...
 */
module History {
  import opened Wrappers
  import opened Submission

  // ------------------------------------------------------------------
  // The user's rows
  // ------------------------------------------------------------------

  /** The rows whose user_email cell is `email`, in sheet order. */
  function UserRows(rows: seq<Row>, email: string): (r: seq<Row>)
    ensures |r| <= |rows|
    ensures forall row :: row in r <==> row in rows && Cell(row, UserEmailColumn) == Some(email)
  {
    if rows == [] then []
    else (if Cell(rows[0], UserEmailColumn) == Some(email) then [rows[0]] else []) + UserRows(rows[1..], email)
  }

  lemma {:induction false} UserRowsAppend(a: seq<Row>, b: seq<Row>, email: string)
    ensures UserRows(a + b, email) == UserRows(a, email) + UserRows(b, email)
  {
    if a == [] {
      assert a + b == b;
    } else {
      assert (a + b)[1..] == a[1..] + b;
      UserRowsAppend(a[1..], b, email);
    }
  }

  /**
   * A submission appears at the end of its author's history, so the
   * submission count grows by one, and no other user's history changes.
   */
  lemma SubmissionAppearsInHistory(existing: seq<Row>, email: string, option: Option<string>, grade: string,
                                   style: Option<string>, userInput: string, viewer: string)
    ensures UserRows(UpdateGoogleSheets(existing, AddNewData(email, option, grade, style, userInput)), viewer) ==
            UserRows(existing, viewer) + (if viewer == email then [AddNewData(email, option, grade, style, userInput)] else [])
  {
    var row := AddNewData(email, option, grade, style, userInput);
    UserRowsAppend(existing, [row], viewer);
    assert [row][1..] == [];
  }

  /** The rows shown to the user: the same rows without the user_email column. */
  function DropEmailColumn(rows: seq<Row>): (r: seq<Row>)
    ensures |r| == |rows|
    ensures forall i :: 0 <= i < |r| ==> UserEmailColumn !in r[i]
    ensures forall i, col :: 0 <= i < |r| && col != UserEmailColumn ==> Cell(r[i], col) == Cell(rows[i], col)
  {
    seq(|rows|, i requires 0 <= i < |rows| => rows[i] - {UserEmailColumn})
  }

  // ------------------------------------------------------------------
  // Framework and section filters
  // ------------------------------------------------------------------

  /** The distinct cells of column `col`, an empty cell included as None. */
  function UniqueValues(rows: seq<Row>, col: string): set<Option<string>> {
    set i | 0 <= i < |rows| :: Cell(rows[i], col)
  }

  /** The rows whose framework is among `frameworks` and whose section is among `sections`. */
  function SelectRows(rows: seq<Row>, frameworks: set<Option<string>>, sections: set<Option<string>>)
    : (r: seq<Row>)
    ensures |r| <= |rows|
    ensures forall row :: row in r <==>
              row in rows && Cell(row, TestFrameworkColumn) in frameworks && Cell(row, TestSectionColumn) in sections
  {
    if rows == [] then []
    else
      var keep := Cell(rows[0], TestFrameworkColumn) in frameworks && Cell(rows[0], TestSectionColumn) in sections;
      (if keep then [rows[0]] else []) + SelectRows(rows[1..], frameworks, sections)
  }

  /** The filter distributes over concatenation, so it keeps every selected row, in order and with its repeats. */
  lemma {:induction false} SelectRowsAppend(a: seq<Row>, b: seq<Row>, frameworks: set<Option<string>>,
                                            sections: set<Option<string>>)
    ensures SelectRows(a + b, frameworks, sections) == SelectRows(a, frameworks, sections) + SelectRows(b, frameworks, sections)
  {
    if a == [] {
      assert a + b == b;
    } else {
      assert (a + b)[1..] == a[1..] + b;
      SelectRowsAppend(a[1..], b, frameworks, sections);
    }
  }

  lemma {:induction false} SelectKeepsCovered(rows: seq<Row>, frameworks: set<Option<string>>,
                                              sections: set<Option<string>>)
    requires forall i :: 0 <= i < |rows| ==>
               Cell(rows[i], TestFrameworkColumn) in frameworks && Cell(rows[i], TestSectionColumn) in sections
    ensures SelectRows(rows, frameworks, sections) == rows
  {
    if rows != [] {
      SelectKeepsCovered(rows[1..], frameworks, sections);
    }
  }

  /** With the default selections, every framework and section, no row is filtered out. */
  lemma DefaultSelectionKeepsAll(rows: seq<Row>)
    ensures SelectRows(rows, UniqueValues(rows, TestFrameworkColumn), UniqueValues(rows, TestSectionColumn)) == rows
  {
    SelectKeepsCovered(rows, UniqueValues(rows, TestFrameworkColumn), UniqueValues(rows, TestSectionColumn));
  }

  // ------------------------------------------------------------------
  // The chart's series key and x-axis
  // ------------------------------------------------------------------

  /** framework + "-" + section; an empty framework or section gives an empty key. */
  function FrameworkSection(row: Row): (k: Option<string>)
    ensures k.Some? <==> Cell(row, TestFrameworkColumn).Some? && Cell(row, TestSectionColumn).Some?
    ensures k.Some? ==> k.value == row[TestFrameworkColumn] + "-" + row[TestSectionColumn]
  {
    match (Cell(row, TestFrameworkColumn), Cell(row, TestSectionColumn))
    case (Some(f), Some(s)) => Some(f + "-" + s)
    case _ => None
  }

  /** For the page's two sections, the key names exactly one framework-section pair. */
  lemma KeyDeterminesPair(f1: string, s1: string, f2: string, s2: string)
    requires s1 in StyleOptions && s2 in StyleOptions
    requires f1 + "-" + s1 == f2 + "-" + s2
    ensures f1 == f2 && s1 == s2
  {
    var k1, k2 := f1 + "-" + s1, f2 + "-" + s2;
    assert k1[|k1| - 8] == if s1 == "Writing" then '-' else 'S';
    assert k2[|k2| - 8] == if s2 == "Writing" then '-' else 'S';
    assert s1 == s2;
    assert f1 == k1[..|f1|] && f2 == k2[..|f2|];
  }

  /** A chart series: a framework-section key, or None for a row with an empty cell. */
  type SeriesKey = Option<string>

  function PlotKeys(rows: seq<Row>): (keys: seq<SeriesKey>)
    ensures |keys| == |rows|
    ensures forall i :: 0 <= i < |rows| ==> keys[i] == FrameworkSection(rows[i])
  {
    seq(|rows|, i requires 0 <= i < |rows| => FrameworkSection(rows[i]))
  }

  /** How often `k` occurs in `s`. */
  function Occurrences(s: seq<SeriesKey>, k: SeriesKey): (n: nat)
    ensures n <= |s|
    ensures n == 0 <==> k !in s
  {
    if s == [] then 0
    else
      assert s == s[..|s| - 1] + [s[|s| - 1]];
      Occurrences(s[..|s| - 1], k) + (if s[|s| - 1] == k then 1 else 0)
  }

  /** The x-value of row `i`: how many of the rows up to and including `i` share its key. */
  function XValueAt(keys: seq<SeriesKey>, i: nat): nat
    requires i < |keys|
  {
    Occurrences(keys[..i + 1], keys[i])
  }

  /** `counts` holds, for each key seen so far, the number of times it was seen. */
  ghost predicate CountsOf(counts: map<SeriesKey, nat>, seen: seq<SeriesKey>) {
    (forall k :: k in counts <==> k in seen) &&
    (forall k :: k in counts ==> counts[k] == Occurrences(seen, k))
  }

  /** The counter update of one row keeps `CountsOf`. */
  lemma CountsStep(counts: map<SeriesKey, nat>, seen: seq<SeriesKey>, key: SeriesKey)
    requires CountsOf(counts, seen)
    ensures var next := if key !in counts then counts[key := 1] else counts[key := counts[key] + 1];
            CountsOf(next, seen + [key]) && next[key] == Occurrences(seen + [key], key)
  {
  }

  /**
   * The x-values of the rows: the running count of each row's key, so the
   * first row of a key gets 1 and each later row of that key one more.
   */
  method XValues(keys: seq<SeriesKey>) returns (xs: seq<nat>)
    ensures |xs| == |keys|
    ensures forall i :: 0 <= i < |keys| ==> xs[i] == XValueAt(keys, i)
  {
    var combinationToX: map<SeriesKey, nat> := map[];
    xs := [];
    for i := 0 to |keys|
      invariant |xs| == i
      invariant CountsOf(combinationToX, keys[..i])
      invariant forall j :: 0 <= j < i ==> xs[j] == XValueAt(keys, j)
    {
      var combination := keys[i];
      assert keys[..i + 1] == keys[..i] + [combination];
      CountsStep(combinationToX, keys[..i], combination);
      if combination !in combinationToX {
        combinationToX := combinationToX[combination := 1];
      } else {
        combinationToX := combinationToX[combination := combinationToX[combination] + 1];
      }
      xs := xs + [combinationToX[combination]];
    }
  }

  /** A row's x-value is one more than its key's count before it, so it is 1 exactly at the key's first row. */
  lemma FirstOccurrenceIsOne(keys: seq<SeriesKey>, i: nat)
    requires i < |keys|
    ensures XValueAt(keys, i) == Occurrences(keys[..i], keys[i]) + 1
    ensures XValueAt(keys, i) == 1 <==> keys[i] !in keys[..i]
  {
    assert keys[..i + 1][..i] == keys[..i];
  }

  /** Occurrence counts only grow along a sequence, and stay put over a stretch without the key. */
  lemma {:induction false} OccurrencesMonotone(keys: seq<SeriesKey>, i: nat, j: nat, k: SeriesKey)
    requires i <= j <= |keys|
    ensures Occurrences(keys[..i], k) <= Occurrences(keys[..j], k)
    ensures k !in keys[i..j] ==> Occurrences(keys[..i], k) == Occurrences(keys[..j], k)
    decreases j - i
  {
    if i < j {
      OccurrencesMonotone(keys, i, j - 1, k);
      assert keys[..j][..j - 1] == keys[..j - 1];
      assert keys[i..j] == keys[i..j - 1] + [keys[j - 1]];
    }
  }

  /**
   * Two rows with the same key get different x-values, the later one the
   * larger: no two rows of one series share a point of the chart.
   */
  lemma SameKeyDistinctX(keys: seq<SeriesKey>, i: nat, j: nat)
    requires i < j < |keys| && keys[i] == keys[j]
    ensures XValueAt(keys, i) < XValueAt(keys, j)
  {
    OccurrencesMonotone(keys, i + 1, j, keys[i]);
    FirstOccurrenceIsOne(keys, j);
  }

  /** The next row of the same key gets exactly one more than the previous one. */
  lemma NextOccurrenceAddsOne(keys: seq<SeriesKey>, i: nat, j: nat)
    requires i < j < |keys| && keys[i] == keys[j]
    requires keys[j] !in keys[i + 1..j]
    ensures XValueAt(keys, j) == XValueAt(keys, i) + 1
  {
    OccurrencesMonotone(keys, i + 1, j, keys[i]);
    FirstOccurrenceIsOne(keys, j);
  }

  // ------------------------------------------------------------------
  // The frame's columns
  // ------------------------------------------------------------------

  const WernickeOutputColumn := "Wernicke_output"
  const FrameworkSectionColumn := "framework_section"

  /** The columns the section reads by name, in the order it reads them. */
  const RequiredColumns: seq<string> :=
    [UserEmailColumn, TestFrameworkColumn, TestSectionColumn, UserInputColumn, WernickeOutputColumn]

  /** The position of the score column among the plot frame's columns. */
  const ScorePosition: nat := 5

  /**
   * The first column the section reads by name that the frame lacks. Where
   * one selection reads user_input and Wernicke_output together, the error
   * names every missing label of the two; the model names the first.
   */
  function MissingColumn(columns: seq<string>): (r: Option<string>)
    ensures r.None? <==> forall c :: c in RequiredColumns ==> c in columns
    ensures r.Some? ==> r.value in RequiredColumns && r.value !in columns
    ensures r.Some? ==> forall j :: 0 <= j < |RequiredColumns| && RequiredColumns[j] == r.value ==>
                          forall k :: 0 <= k < j ==> RequiredColumns[k] in columns
  {
    if UserEmailColumn !in columns then Some(UserEmailColumn)
    else if TestFrameworkColumn !in columns then Some(TestFrameworkColumn)
    else if TestSectionColumn !in columns then Some(TestSectionColumn)
    else if UserInputColumn !in columns then Some(UserInputColumn)
    else if WernickeOutputColumn !in columns then Some(WernickeOutputColumn)
    else None
  }

  /** The displayed frame's columns: the sheet's columns without user_email, in order. */
  function DisplayColumns(columns: seq<string>): (r: seq<string>)
    ensures forall c :: c in r <==> c in columns && c != UserEmailColumn
    ensures |r| == |columns| - multiset(columns)[UserEmailColumn]
  {
    if columns == [] then []
    else
      assert columns == [columns[0]] + columns[1..];
      (if columns[0] != UserEmailColumn then [columns[0]] else []) + DisplayColumns(columns[1..])
  }

  /** Dropping the column distributes over concatenation, so the other columns keep their order and repeats. */
  lemma {:induction false} DisplayColumnsAppend(a: seq<string>, b: seq<string>)
    ensures DisplayColumns(a + b) == DisplayColumns(a) + DisplayColumns(b)
  {
    if a == [] {
      assert a + b == b;
    } else {
      assert (a + b)[1..] == a[1..] + b;
      DisplayColumnsAppend(a[1..], b);
    }
  }

  /** The plot frame's columns: framework_section is added at the end unless the frame has it. */
  function PlotColumns(display: seq<string>): (r: seq<string>)
    ensures display <= r && FrameworkSectionColumn in r
    ensures |r| == |display| + (if FrameworkSectionColumn in display then 0 else 1)
  {
    if FrameworkSectionColumn in display then display else display + [FrameworkSectionColumn]
  }

  /**
   * A sheet with one user_email column and at least seven columns has a
   * score column at position 5 of the plot frame.
   */
  lemma ScoreColumnExists(columns: seq<string>)
    requires multiset(columns)[UserEmailColumn] <= 1 && |columns| >= 7
    ensures |PlotColumns(DisplayColumns(columns))| > ScorePosition
  {
  }

  /**
   * A frame whose columns are all among the four a submission writes lacks
   * Wernicke_output, so the section cannot show it.
   */
  lemma SubmissionColumnsLackOutput(columns: seq<string>)
    requires forall c :: c in columns ==> c in [UserEmailColumn, TestFrameworkColumn, TestSectionColumn, UserInputColumn]
    ensures MissingColumn(columns).Some?
    ensures MissingColumn(columns) == Some(WernickeOutputColumn) <==>
              UserEmailColumn in columns && TestFrameworkColumn in columns && TestSectionColumn in columns &&
              UserInputColumn in columns
  {
  }

  // ------------------------------------------------------------------
  // The whole section
  // ------------------------------------------------------------------

  datatype Plot = Plot(scoreColumn: string, keys: seq<SeriesKey>, xValues: seq<nat>)

  /** What the section computes; `plot` is None when no row survives the filters. */
  datatype HistoryView = HistoryView(submissions: nat, display: seq<Row>, filtered: seq<Row>, plot: Option<Plot>)

  /** A column read by a name the frame lacks, or a column position past its end. */
  datatype HistoryError = KeyError(column: string) | IndexError(position: nat)

  /**
   * The section over a sheet with columns `columns` and rows `existing`.
   * `selectedFrameworks` and `selectedSections` are the multiselects' choices.
   */
  method HandleHistorySection(columns: seq<string>, existing: seq<Row>, email: string,
                              selectedFrameworks: set<Option<string>>, selectedSections: set<Option<string>>)
    returns (r: Result<HistoryView, HistoryError>)
    ensures MissingColumn(columns).Some? ==> r == Err(KeyError(MissingColumn(columns).value))
    ensures MissingColumn(columns).None? &&
            SelectRows(DropEmailColumn(UserRows(existing, email)), selectedFrameworks, selectedSections) != [] &&
            |PlotColumns(DisplayColumns(columns))| <= ScorePosition ==>
              r == Err(IndexError(ScorePosition))
    ensures r.Ok? ==> MissingColumn(columns).None?
    ensures r.Err? ==>
              MissingColumn(columns).Some? ||
              (SelectRows(DropEmailColumn(UserRows(existing, email)), selectedFrameworks, selectedSections) != [] &&
               |PlotColumns(DisplayColumns(columns))| <= ScorePosition)
    ensures r.Ok? ==>
              var view := r.value;
              view.submissions == |UserRows(existing, email)| &&
              view.display == DropEmailColumn(UserRows(existing, email)) &&
              view.filtered == SelectRows(view.display, selectedFrameworks, selectedSections) &&
              (view.plot.None? <==> view.filtered == [])
    ensures r.Ok? && r.value.plot.Some? ==>
              var view, plot := r.value, r.value.plot.value;
              |PlotColumns(DisplayColumns(columns))| > ScorePosition &&
              plot.scoreColumn == PlotColumns(DisplayColumns(columns))[ScorePosition] &&
              plot.keys == PlotKeys(view.filtered) &&
              |plot.xValues| == |view.filtered| &&
              forall i :: 0 <= i < |view.filtered| ==> plot.xValues[i] == XValueAt(plot.keys, i)
  {
    if UserEmailColumn !in columns {
      return Err(KeyError(UserEmailColumn));
    }
    var userData := UserRows(existing, email);
    var displayColumns := DisplayColumns(columns);
    var displayData := DropEmailColumn(userData);
    if TestFrameworkColumn !in displayColumns {
      return Err(KeyError(TestFrameworkColumn));
    }
    if TestSectionColumn !in displayColumns {
      return Err(KeyError(TestSectionColumn));
    }
    var filteredData := SelectRows(displayData, selectedFrameworks, selectedSections);
    if UserInputColumn !in displayColumns {
      return Err(KeyError(UserInputColumn));
    }
    if WernickeOutputColumn !in displayColumns {
      return Err(KeyError(WernickeOutputColumn));
    }
    var plot: Option<Plot> := None;
    if filteredData != [] {
      var plotColumns := PlotColumns(displayColumns);
      if |plotColumns| <= ScorePosition {
        return Err(IndexError(ScorePosition));
      }
      var keys := PlotKeys(filteredData);
      var xValues := XValues(keys);
      plot := Some(Plot(plotColumns[ScorePosition], keys, xValues));
    }
    return Ok(HistoryView(|userData|, displayData, filteredData, plot));
  }
}

=== FILE: submission.dfy ===
/**
 * The grading page's submission rules: the language pick, the test
 * configuration, the choice of grading assistant, and the record appended to
 * the submissions sheet. A sheet row is a map from column name to cell; a
 * column missing from the map is an empty (NaN) cell.
 */
module Submission {
  import opened Wrappers

  type Row = map<string, string>

  const UserEmailColumn := "user_email"
  const TestFrameworkColumn := "test_framework"
  const TestSectionColumn := "test_section"
  const UserInputColumn := "user_input"

  /** The value of column `col` in `row`, None when the cell is empty. */
  function Cell(row: Row, col: string): Option<string> {
    if col in row then Some(row[col]) else None
  }

  // ------------------------------------------------------------------
  // Language pick
  // ------------------------------------------------------------------

  /** Picks the Japanese text when the Japanese toggle is on, the English text otherwise. */
  function Translate<T>(textJapanese: T, textEnglish: T, isJapanese: bool): (r: T)
    ensures isJapanese ==> r == textJapanese
    ensures !isJapanese ==> r == textEnglish
  {
    if isJapanese then textJapanese else textEnglish
  }

  // ------------------------------------------------------------------
  // Test configuration
  // ------------------------------------------------------------------

  const NullText := "null"

  /** The framework choices of the test select box. */
  function FrameworkOptions(isJapanese: bool): seq<string> {
    Translate(["IELTS", "TOEFL", "TOEIC", "英検"], ["IELTS", "TOEFL", "TOEIC", "Eiken"], isJapanese)
  }

  /** The grade choices of the Eiken slider. */
  function GradeOptions(isJapanese: bool): seq<string> {
    Translate(["1級", "準１級", "2級", "準２級", "3級", "4級", "5級"],
              ["1", "Pre-1", "2", "Pre-2", "3", "4", "5"], isJapanese)
  }

  /** The section choices. */
  const StyleOptions: seq<string> := ["Writing", "Speaking"]

  /** The option names the Eiken test in either language. */
  predicate IsEiken(option: Option<string>) {
    option == Some("Eiken") || option == Some("英検")
  }

  datatype TestConfiguration = TestConfiguration(option: Option<string>, grade: string, style: Option<string>)

  /**
   * The configuration chosen on the page. `option` and `style` are the select
   * boxes (None before a choice); `gradePick` is the slider, shown only for Eiken.
   */
  function SetTestConfiguration(isJapanese: bool, option: Option<string>, gradePick: string, style: Option<string>)
    : (c: TestConfiguration)
    requires option.Some? ==> option.value in FrameworkOptions(isJapanese)
    requires IsEiken(option) ==> gradePick in GradeOptions(isJapanese)
    requires style.Some? ==> style.value in StyleOptions
    ensures c.option == option && c.style == style
    ensures IsEiken(option) ==> c.grade == gradePick
    ensures c.grade != NullText <==> IsEiken(option)
  {
    var grade := if option in [Some("Eiken"), Some("英検")] then gradePick else NullText;
    TestConfiguration(option, grade, style)
  }

  // ------------------------------------------------------------------
  // Grading assistant dispatch
  // ------------------------------------------------------------------

  /** What the page does after choosing: run the assistant, or show a notice. */
  datatype Action = RunAssistant | Notice(message: string)

  datatype Dispatch = Dispatch(assistantId: string, action: Action)

  /**
   * The assistant for a configuration. `writingId` and `speakingId` are the
   * deployment's IELTS assistant ids.
   */
  function GetGptResponse(option: Option<string>, style: Option<string>, writingId: string, speakingId: string)
    : (d: Dispatch)
    ensures d.action == RunAssistant <==> option == Some("IELTS")
    ensures option == Some("IELTS") && style == Some("Speaking") ==> d.assistantId == speakingId
    ensures option == Some("IELTS") && style != Some("Speaking") ==> d.assistantId == writingId
    ensures option != Some("IELTS") ==> d.assistantId == NullText
    ensures option in [Some("TOEFL"), Some("TOEIC"), Some("Eiken"), Some("英検")] ==>
              d.action == Notice("Under Preparation")
    ensures option.None? ==> d.action == Notice("Please Provide Your Answer First")
  {
    if option == Some("IELTS") then
      Dispatch(if style == Some("Speaking") then speakingId else writingId, RunAssistant)
    else if option in [Some("TOEFL"), Some("TOEIC"), Some("Eiken"), Some("英検")] then
      Dispatch(NullText, Notice("Under Preparation"))
    else
      Dispatch(NullText, Notice("Please Provide Your Answer First"))
  }

  // ------------------------------------------------------------------
  // The submission record
  // ------------------------------------------------------------------

  /** The framework label: option and grade joined for Eiken, the option alone otherwise. */
  function TestFramework(option: Option<string>, grade: string): (r: Option<string>)
    ensures r.Some? <==> option.Some?
    ensures r.Some? ==> option.value <= r.value
    ensures r.Some? ==> r.value[|option.value|..] == if IsEiken(option) then grade else ""
  {
    if IsEiken(option) then Some(option.value + grade) else option
  }

  /** Two Eiken labels with the same option are equal only for equal grades. */
  lemma EikenLabelDeterminesGrade(option: Option<string>, grade1: string, grade2: string)
    requires IsEiken(option)
    requires TestFramework(option, grade1) == TestFramework(option, grade2)
    ensures grade1 == grade2
  {
  }

  /** The submitted record; a None framework or section is an empty cell. */
  function AddNewData(email: string, option: Option<string>, grade: string, style: Option<string>, userInput: string)
    : (r: Row)
    ensures r.Keys <= {UserEmailColumn, TestFrameworkColumn, TestSectionColumn, UserInputColumn}
    ensures Cell(r, UserEmailColumn) == Some(email)
    ensures Cell(r, TestFrameworkColumn) == TestFramework(option, grade)
    ensures Cell(r, TestSectionColumn) == style
    ensures Cell(r, UserInputColumn) == Some(userInput)
  {
    var withFramework := match TestFramework(option, grade)
      case Some(f) => map[TestFrameworkColumn := f]
      case None => map[];
    var withSection := match style
      case Some(s) => withFramework[TestSectionColumn := s]
      case None => withFramework;
    withSection[UserEmailColumn := email][UserInputColumn := userInput]
  }

  // ------------------------------------------------------------------
  // The submissions sheet
  // ------------------------------------------------------------------

  /** The sheet after a submission: the existing rows in order, then the new record. */
  function UpdateGoogleSheets(existing: seq<Row>, newData: Row): (r: seq<Row>)
    ensures |r| == |existing| + 1
    ensures r[..|existing|] == existing
    ensures r[|existing|] == newData
  {
    existing + [newData]
  }

  /** The rows read from the sheet without those whose cells are all empty. */
  function DropAllMissing(rows: seq<Row>): (r: seq<Row>)
    ensures |r| <= |rows|
    ensures forall row :: row in r <==> row in rows && row != map[]
  {
    if rows == [] then []
    else (if rows[0] != map[] then [rows[0]] else []) + DropAllMissing(rows[1..])
  }

  /** Dropping distributes over concatenation, so the kept rows stay in their order. */
  lemma {:induction false} DropAllMissingAppend(a: seq<Row>, b: seq<Row>)
    ensures DropAllMissing(a + b) == DropAllMissing(a) + DropAllMissing(b)
  {
    if a == [] {
      assert a + b == b;
    } else {
      assert (a + b)[1..] == a[1..] + b;
      DropAllMissingAppend(a[1..], b);
    }
  }

  /** A sheet without all-empty rows is left as it is. */
  lemma {:induction false} DropAllMissingKeepsFull(rows: seq<Row>)
    requires forall i :: 0 <= i < |rows| ==> rows[i] != map[]
    ensures DropAllMissing(rows) == rows
  {
    if rows != [] {
      DropAllMissingKeepsFull(rows[1..]);
    }
  }

  /** Dropping twice drops nothing more. */
  lemma DropAllMissingIdempotent(rows: seq<Row>)
    ensures DropAllMissing(DropAllMissing(rows)) == DropAllMissing(rows)
  {
    var r := DropAllMissing(rows);
    assert forall i :: 0 <= i < |r| ==> r[i] in r;
    DropAllMissingKeepsFull(r);
  }

  /** A submission never adds an all-empty row, so re-reading the updated sheet keeps it. */
  lemma SubmissionSurvivesDrop(existing: seq<Row>, email: string, option: Option<string>, grade: string,
                               style: Option<string>, userInput: string)
    ensures DropAllMissing(UpdateGoogleSheets(existing, AddNewData(email, option, grade, style, userInput))) ==
            DropAllMissing(existing) + [AddNewData(email, option, grade, style, userInput)]
  {
    var row := AddNewData(email, option, grade, style, userInput);
    assert UserEmailColumn in row;
    DropAllMissingAppend(existing, [row]);
    assert [row][1..] == [];
  }
}

=== FILE: word_store.dfy ===
/**
 * The vocabulary back end: a user sheet and a word sheet, each read over the
 * range A:C. A user row is [email, "", userId]; a word row is ["", userId, word].
 * The remote sheet returns every row as a list of strings with trailing empty
 * cells dropped, so a row may hold fewer than three cells.
 */
module WordStore {
  import opened Wrappers

  type Row = seq<string>
  type Table = seq<Row>

  /** Length of a freshly generated user id. */
  const IdLength: nat := 8

  /** The id alphabet: ASCII letters of both cases and decimal digits. */
  predicate IsIdChar(c: char) {
    'a' <= c <= 'z' || 'A' <= c <= 'Z' || '0' <= c <= '9'
  }

  predicate IsUserId(s: string) {
    |s| == IdLength && forall i :: 0 <= i < |s| ==> IsIdChar(s[i])
  }

  /** An index error raised while reading row `row` of a fetched table. */
  datatype StoreError = RowTooShort(row: nat)

  // ------------------------------------------------------------------
  // The user sheet
  // ------------------------------------------------------------------

  predicate EmailMatches(row: Row, email: string) {
    |row| > 0 && row[0] == email
  }

  /** Index of the first user row whose column A holds `email`. */
  function FindUser(users: Table, email: string): (r: Option<nat>)
    ensures r.Some? ==> r.value < |users| && EmailMatches(users[r.value], email)
    ensures r.Some? ==> forall j :: 0 <= j < r.value ==> !EmailMatches(users[j], email)
    ensures r.None? <==> forall j :: 0 <= j < |users| ==> !EmailMatches(users[j], email)
  {
    if users == [] then None
    else if EmailMatches(users[0], email) then Some(0)
    else match FindUser(users[1..], email)
      case None => None
      case Some(k) => Some(k + 1)
  }

  /** Column C of user row `i`, or the index error a row of fewer than three cells raises. */
  function StoredUserId(users: Table, i: nat): Result<string, StoreError>
    requires i < |users|
  {
    if |users[i]| > 2 then Ok(users[i][2]) else Err(RowTooShort(i))
  }

  function NewUserRow(email: string, userId: string): Row {
    [email, "", userId]
  }

  /**
   * The row the sheet hands back after `row` was appended: the sheet does not
   * return trailing empty cells, so what is read is the longest prefix of
   * `row` that does not end in "".
   */
  function StoredRow(row: Row): (r: Row)
    ensures r <= row
    ensures r == [] || r[|r| - 1] != ""
    ensures forall j :: |r| <= j < |row| ==> row[j] == ""
  {
    if row == [] || row[|row| - 1] != "" then row else StoredRow(row[..|row| - 1])
  }

  /**
   * The table after `row` is appended, as the next read sees it: the stored
   * row at the end, or no new row at all when every cell is empty, since the
   * sheet does not return trailing empty rows either.
   */
  function Appended(table: Table, row: Row): (t: Table)
    ensures StoredRow(row) == [] ==> t == table
    ensures StoredRow(row) != [] ==> |t| == |table| + 1 && t[..|table|] == table && t[|table|] == StoredRow(row)
  {
    if StoredRow(row) == [] then table else table + [StoredRow(row)]
  }

  /** No email sits in column A of two user rows. */
  ghost predicate EmailsDistinct(users: Table) {
    forall i, j :: 0 <= i < j < |users| && |users[i]| > 0 ==> !EmailMatches(users[j], users[i][0])
  }

  /** Appending a row does not change which row a successful lookup finds. */
  lemma FindUserAppendFound(users: Table, row: Row, email: string)
    requires FindUser(users, email).Some?
    ensures FindUser(users + [row], email) == FindUser(users, email)
  {
    var i := FindUser(users, email).value;
    assert (users + [row])[i] == users[i];
  }

  /** After a missed lookup appends a new user row, the next lookup finds that row. */
  lemma FindUserAppendNew(users: Table, email: string, userId: string)
    requires FindUser(users, email).None?
    ensures FindUser(users + [NewUserRow(email, userId)], email) == Some(|users|)
    ensures StoredUserId(users + [NewUserRow(email, userId)], |users|) == Ok(userId)
  {
  }

  /** Creating a user only for an unseen email keeps emails distinct. */
  lemma NewEmailKeepsDistinct(users: Table, email: string, userId: string)
    requires FindUser(users, email).None?
    ensures EmailsDistinct(users) ==> EmailsDistinct(users + [NewUserRow(email, userId)])
  {
  }

  // ------------------------------------------------------------------
  // The word sheet
  // ------------------------------------------------------------------

  function WordRow(userId: string, word: string): Row {
    ["", userId, word]
  }

  /**
   * A row that the word listing can read without an index error: it has a
   * column B, and a column C when column B is `userId`.
   */
  predicate ReadableRow(row: Row, userId: string) {
    |row| > 1 && (row[1] == userId ==> |row| > 2)
  }

  predicate Readable(words: Table, userId: string) {
    forall i :: 0 <= i < |words| ==> ReadableRow(words[i], userId)
  }

  /** Column C of the rows whose column B is `userId`, in table order. */
  function MatchingWords(words: Table, userId: string): seq<string>
    requires Readable(words, userId)
  {
    if words == [] then []
    else
      assert ReadableRow(words[0], userId);
      (if words[0][1] == userId then [words[0][2]] else []) + MatchingWords(words[1..], userId)
  }

  /** The listing of a concatenation is the concatenation of the listings. */
  lemma {:induction false} MatchingWordsAppend(a: Table, b: Table, userId: string)
    requires Readable(a, userId) && Readable(b, userId)
    ensures Readable(a + b, userId)
    ensures MatchingWords(a + b, userId) == MatchingWords(a, userId) + MatchingWords(b, userId)
  {
    if a == [] {
      assert a + b == b;
    } else {
      assert (a + b)[1..] == a[1..] + b;
      MatchingWordsAppend(a[1..], b, userId);
    }
  }

  predicate WordMatches(row: Row, userId: string, word: string) {
    |row| > 2 && row[1] == userId && row[2] == word
  }

  /** A word is listed for a user exactly when some row holds that (user, word) pair. */
  lemma {:induction false} MatchingWordsMembers(words: Table, userId: string, word: string)
    requires Readable(words, userId)
    ensures word in MatchingWords(words, userId) <==>
            exists i :: 0 <= i < |words| && WordMatches(words[i], userId, word)
  {
    if words != [] {
      MatchingWordsMembers(words[1..], userId, word);
      if word in MatchingWords(words[1..], userId) {
        var i :| 0 <= i < |words[1..]| && WordMatches(words[1..][i], userId, word);
        assert WordMatches(words[i + 1], userId, word);
      }
      if exists i :: 0 <= i < |words| && WordMatches(words[i], userId, word) {
        var i :| 0 <= i < |words| && WordMatches(words[i], userId, word);
        if i > 0 {
          assert WordMatches(words[1..][i - 1], userId, word);
        }
      }
    }
  }

  /** The number of rows whose column B is `userId`. */
  function RowsOf(words: Table, userId: string): (n: nat)
    ensures n <= |words|
  {
    if words == [] then 0
    else (if |words[0]| > 1 && words[0][1] == userId then 1 else 0) + RowsOf(words[1..], userId)
  }

  /** The listing has one entry per row owned by the user. */
  lemma {:induction false} MatchingWordsLength(words: Table, userId: string)
    requires Readable(words, userId)
    ensures |MatchingWords(words, userId)| == RowsOf(words, userId)
  {
    if words != [] {
      MatchingWordsLength(words[1..], userId);
    }
  }

  /** Index of the first row that holds the pair (userId, word) and has a column C. */
  function FindWord(words: Table, userId: string, word: string): (r: Option<nat>)
    ensures r.Some? ==> r.value < |words| && WordMatches(words[r.value], userId, word)
    ensures r.Some? ==> forall j :: 0 <= j < r.value ==> !WordMatches(words[j], userId, word)
    ensures r.None? <==> forall j :: 0 <= j < |words| ==> !WordMatches(words[j], userId, word)
  {
    if words == [] then None
    else if WordMatches(words[0], userId, word) then Some(0)
    else match FindWord(words[1..], userId, word)
      case None => None
      case Some(k) => Some(k + 1)
  }

  /** The structural delete of row `i`: every later row moves up by one. */
  function RemoveAt(words: Table, i: nat): (r: Table)
    requires i < |words|
    ensures |r| == |words| - 1
    ensures forall j :: 0 <= j < i ==> r[j] == words[j]
    ensures forall j :: i <= j < |r| ==> r[j] == words[j + 1]
  {
    words[..i] + words[i + 1..]
  }

  /** `s` without its first occurrence of `x`. */
  function RemoveFirst(s: seq<string>, x: string): seq<string> {
    if s == [] then []
    else if s[0] == x then s[1..]
    else [s[0]] + RemoveFirst(s[1..], x)
  }

  lemma {:induction false} RemoveFirstSkips(a: seq<string>, x: string, b: seq<string>)
    requires x !in a
    ensures RemoveFirst(a + [x] + b, x) == a + b
  {
    if a == [] {
      assert a + [x] + b == [x] + b;
    } else {
      assert (a + [x] + b)[1..] == a[1..] + [x] + b;
      RemoveFirstSkips(a[1..], x, b);
      assert a == [a[0]] + a[1..];
    }
  }

  lemma {:induction false} RemoveFirstMultiset(s: seq<string>, x: string)
    requires x in s
    ensures multiset(RemoveFirst(s, x)) == multiset(s) - multiset{x}
  {
    assert s == [s[0]] + s[1..];
    if s[0] != x {
      RemoveFirstMultiset(s[1..], x);
    }
  }

  /** A word can be deleted exactly when the listing of its user shows it. */
  lemma FindWordIffListed(words: Table, userId: string, word: string)
    requires Readable(words, userId)
    ensures FindWord(words, userId, word).Some? <==> word in MatchingWords(words, userId)
  {
  }

  /**
   * How an added word row reads back: whole for a non-empty word; without
   * column C for an empty word; not at all when the user id is empty too.
   */
  lemma StoredWordRow(words: Table, userId: string, word: string)
    ensures word != "" ==> Appended(words, WordRow(userId, word)) == words + [WordRow(userId, word)]
    ensures word == "" && userId != "" ==> Appended(words, WordRow(userId, word)) == words + [["", userId]]
    ensures word == "" && userId == "" ==> Appended(words, WordRow(userId, word)) == words
  {
    if word == "" && userId != "" {
      var row := WordRow(userId, word);
      assert row[..2] == ["", userId];
      assert StoredRow(row) == StoredRow(["", userId]) == ["", userId];
      assert StoredRow(row) != [];
    }
  }

  /** After a non-empty word is added, the user's listing gains it at its end; other listings stay. */
  lemma AddWordListing(words: Table, userId: string, word: string, other: string)
    requires word != ""
    requires Readable(words, other)
    ensures Readable(Appended(words, WordRow(userId, word)), other)
    ensures MatchingWords(Appended(words, WordRow(userId, word)), other) ==
            MatchingWords(words, other) + (if other == userId then [word] else [])
  {
    StoredWordRow(words, userId, word);
    var row := [WordRow(userId, word)];
    assert row[1..] == [];
    MatchingWordsAppend(words, row, other);
  }

  /** Appending a row that does not match leaves the delete's lookup as it was. */
  lemma FindWordAppendMiss(words: Table, row: Row, userId: string, word: string)
    requires !WordMatches(row, userId, word)
    ensures FindWord(words + [row], userId, word) == FindWord(words, userId, word)
  {
    var all := words + [row];
    assert forall j :: 0 <= j < |words| ==> all[j] == words[j];
  }

  /**
   * An added empty word reads back as ["", userId], a row without column C:
   * from then on the user's listing raises an index error. With an empty
   * user id the row is all empty and the sheet keeps nothing. The delete
   * never finds the row, so it stays.
   */
  lemma EmptyWordBreaksListing(words: Table, userId: string, other: string)
    ensures userId != "" ==> !Readable(Appended(words, WordRow(userId, "")), userId)
    ensures userId == "" ==> Appended(words, WordRow(userId, "")) == words
    ensures FindWord(Appended(words, WordRow(userId, "")), userId, "") == FindWord(words, userId, "")
  {
  }

  // ------------------------------------------------------------------
  // The listing with the delete route's guard
  // ------------------------------------------------------------------

  /**
   * The listing as the delete route reads rows: a row of fewer than three
   * cells is skipped rather than read, so no table makes it fail.
   */
  function GuardedWords(words: Table, userId: string): seq<string> {
    if words == [] then []
    else (if |words[0]| > 2 && words[0][1] == userId then [words[0][2]] else []) + GuardedWords(words[1..], userId)
  }

  /** On a table the listing can read, the guarded listing is the same listing. */
  lemma {:induction false} GuardedWordsAgrees(words: Table, userId: string)
    requires Readable(words, userId)
    ensures GuardedWords(words, userId) == MatchingWords(words, userId)
  {
    if words != [] {
      GuardedWordsAgrees(words[1..], userId);
    }
  }

  lemma {:induction false} GuardedWordsAppend(a: Table, b: Table, userId: string)
    ensures GuardedWords(a + b, userId) == GuardedWords(a, userId) + GuardedWords(b, userId)
  {
    if a == [] {
      assert a + b == b;
    } else {
      assert (a + b)[1..] == a[1..] + b;
      GuardedWordsAppend(a[1..], b, userId);
    }
  }

  /** With the guard, a delete finds a row exactly when the listing shows the word, on every table. */
  lemma {:induction false} GuardedFindWordIffListed(words: Table, userId: string, word: string)
    ensures FindWord(words, userId, word).Some? <==> word in GuardedWords(words, userId)
  {
    if words != [] {
      GuardedFindWordIffListed(words[1..], userId, word);
    }
  }

  /**
   * With the guard, every add keeps the listing working: the user's listing
   * gains the word at its end when it is not empty, and other listings stay.
   */
  lemma GuardedAddListing(words: Table, userId: string, word: string, other: string)
    ensures GuardedWords(Appended(words, WordRow(userId, word)), other) ==
            GuardedWords(words, other) + (if other == userId && word != "" then [word] else [])
  {
    StoredWordRow(words, userId, word);
    var row := StoredRow(WordRow(userId, word));
    if row != [] {
      GuardedWordsAppend(words, [row], other);
      assert [row][1..] == [];
    }
  }

  /**
   * Deleting the first matching row removes exactly the first copy of the
   * word from its user's listing and leaves every other user's listing as it was.
   */
  lemma DeleteWordListing(words: Table, userId: string, word: string, other: string)
    requires Readable(words, other)
    requires FindWord(words, userId, word).Some?
    ensures Readable(RemoveAt(words, FindWord(words, userId, word).value), other)
    ensures MatchingWords(RemoveAt(words, FindWord(words, userId, word).value), other) ==
            if other == userId then RemoveFirst(MatchingWords(words, userId), word)
            else MatchingWords(words, other)
  {
    var i := FindWord(words, userId, word).value;
    var before, at, after := words[..i], [words[i]], words[i + 1..];
    assert words == before + at + after;
    assert RemoveAt(words, i) == before + after;
    assert at[1..] == [];
    MatchingWordsAppend(before, at, other);
    MatchingWordsAppend(before + at, after, other);
    MatchingWordsAppend(before, after, other);
    if other == userId {
      assert MatchingWords(at, userId) == [word];
      assert MatchingWords(words, userId) ==
             MatchingWords(before, userId) + [word] + MatchingWords(after, userId);
      MatchingWordsMembers(before, userId, word);
      assert word !in MatchingWords(before, userId) by {
        forall j | 0 <= j < |before| ensures !WordMatches(before[j], userId, word) {
          assert before[j] == words[j];
        }
      }
      RemoveFirstSkips(MatchingWords(before, userId), word, MatchingWords(after, userId));
    }
  }

  /** A delete takes exactly one copy of the word out of its user's listing. */
  lemma DeleteRemovesOneCopy(words: Table, userId: string, word: string)
    requires Readable(words, userId)
    requires FindWord(words, userId, word).Some?
    ensures Readable(RemoveAt(words, FindWord(words, userId, word).value), userId)
    ensures word in MatchingWords(words, userId)
    ensures multiset(MatchingWords(RemoveAt(words, FindWord(words, userId, word).value), userId)) ==
            multiset(MatchingWords(words, userId)) - multiset{word}
  {
    FindWordIffListed(words, userId, word);
    DeleteWordListing(words, userId, word, userId);
    RemoveFirstMultiset(MatchingWords(words, userId), word);
  }

  /**
   * On every table, readable or not, a delete takes exactly the first copy of
   * the word out of the user's listing as the delete route's guard reads it.
   */
  lemma GuardedRemove(words: Table, userId: string, word: string)
    requires FindWord(words, userId, word).Some?
    ensures GuardedWords(RemoveAt(words, FindWord(words, userId, word).value), userId) ==
            RemoveFirst(GuardedWords(words, userId), word)
  {
    var i := FindWord(words, userId, word).value;
    var before, at, after := words[..i], [words[i]], words[i + 1..];
    assert words == before + at + after;
    assert RemoveAt(words, i) == before + after;
    assert at[1..] == [];
    GuardedWordsAppend(before, at, userId);
    GuardedWordsAppend(before + at, after, userId);
    GuardedWordsAppend(before, after, userId);
    assert GuardedWords(at, userId) == [word];
    assert FindWord(before, userId, word).None? by {
      forall j | 0 <= j < |before| ensures !WordMatches(before[j], userId, word) {
        assert before[j] == words[j];
      }
    }
    GuardedFindWordIffListed(before, userId, word);
    RemoveFirstSkips(GuardedWords(before, userId), word, GuardedWords(after, userId));
  }

  /**
   * Deleting the only copy of a word makes a repeated delete report
   * not-found, on every table: the copies are counted as the delete's guard
   * reads the rows.
   */
  lemma DeleteOnlyCopyThenNotFound(words: Table, userId: string, word: string)
    requires multiset(GuardedWords(words, userId))[word] == 1
    ensures FindWord(words, userId, word).Some?
    ensures FindWord(RemoveAt(words, FindWord(words, userId, word).value), userId, word).None?
  {
    GuardedFindWordIffListed(words, userId, word);
    var rest := RemoveAt(words, FindWord(words, userId, word).value);
    GuardedRemove(words, userId, word);
    RemoveFirstMultiset(GuardedWords(words, userId), word);
    assert multiset(GuardedWords(rest, userId))[word] == 0;
    GuardedFindWordIffListed(rest, userId, word);
  }

  // ------------------------------------------------------------------
  // HTTP responses
  // ------------------------------------------------------------------

  datatype Body =
    | UserIdBody(userId: string)        // {'user_id': ...}
    | WordsBody(words: seq<string>)     // {'words': [...]}
    | ResultBody(result: string)        // {'result': ...}
    | AddedBody(updatedCells: nat)      // {'result': 'success', 'updatedCells': n}
    | ErrorBody(error: string)          // {'error': ...}
    | InternalServerError               // an exception the handler does not catch

  datatype Response = Response(status: nat, body: Body)

  function ServerError(): Response {
    Response(500, InternalServerError)
  }

  function UserIdResponse(r: Result<string, StoreError>): Response {
    match r
    case Ok(id) => Response(200, UserIdBody(id))
    case Err(_) => ServerError()
  }

  /** A request carries an email when the field is present and not the empty string. */
  predicate HasEmail(email: Option<string>) {
    email.Some? && email.value != ""
  }

  // ------------------------------------------------------------------
  // The service state and its operations
  // ------------------------------------------------------------------

  class Backend {
    var users: Table
    var words: Table

    constructor (users: Table, words: Table)
      ensures this.users == users && this.words == words
    {
      this.users := users;
      this.words := words;
    }

    /**
     * Scans the user sheet for `email`; on a miss appends [email, "", freshId].
     * `freshId` stands for the randomly drawn id.
     */
    method GetOrCreateUserId(email: string, freshId: string) returns (r: Result<string, StoreError>)
      requires IsUserId(freshId)
      modifies this`users
      ensures FindUser(old(users), email).Some? ==>
                users == old(users) && r == StoredUserId(old(users), FindUser(old(users), email).value)
      ensures FindUser(old(users), email).None? ==>
                users == old(users) + [NewUserRow(email, freshId)] && r == Ok(freshId) && IsUserId(r.value)
      ensures EmailsDistinct(old(users)) ==> EmailsDistinct(users)
    {
      var rows := users;
      for i := 0 to |rows|
        invariant forall j :: 0 <= j < i ==> !EmailMatches(rows[j], email)
      {
        var row := rows[i];
        if |row| > 0 && row[0] == email {
          if |row| > 2 {
            return Ok(row[2]);
          }
          return Err(RowTooShort(i));
        }
      }
      assert freshId != "" by { assert |freshId| == IdLength; }
      users := Appended(users, [email, "", freshId]);
      NewEmailKeepsDistinct(rows, email, freshId);
      return Ok(freshId);
    }

    /** Two strictly sequential calls for one email return the same result. */
    method GetOrCreateUserIdTwice(email: string, firstId: string, secondId: string)
      returns (r1: Result<string, StoreError>, r2: Result<string, StoreError>)
      requires IsUserId(firstId) && IsUserId(secondId)
      modifies this`users
      ensures r2 == r1
      ensures users == old(users) || users == old(users) + [NewUserRow(email, firstId)]
    {
      ghost var before := users;
      r1 := GetOrCreateUserId(email, firstId);
      if FindUser(before, email).None? {
        FindUserAppendNew(before, email, firstId);
      }
      r2 := GetOrCreateUserId(email, secondId);
    }

    /** POST /get_or_create_user: 400 without an email, else the user id (500 on an index error). */
    method GetOrCreateUser(email: Option<string>, freshId: string) returns (resp: Response)
      requires IsUserId(freshId)
      modifies this`users
      ensures !HasEmail(email) ==> users == old(users) && resp == Response(400, ErrorBody("Email is required"))
      ensures HasEmail(email) && FindUser(old(users), email.value).Some? ==>
                users == old(users) &&
                resp == UserIdResponse(StoredUserId(old(users), FindUser(old(users), email.value).value))
      ensures HasEmail(email) && FindUser(old(users), email.value).None? ==>
                users == old(users) + [NewUserRow(email.value, freshId)] &&
                resp == Response(200, UserIdBody(freshId))
    {
      if email.Some? && email.value != "" {
        var r := GetOrCreateUserId(email.value, freshId);
        resp := UserIdResponse(r);
      } else {
        resp := Response(400, ErrorBody("Email is required"));
      }
    }

    /**
     * GET /get_words: column C of every row whose column B is `userId`.
     * Reading column B of a row with fewer than two cells, or column C of a
     * matching row with fewer than three, raises an index error (status 500).
     */
    method GetWords(userId: string) returns (resp: Response)
      ensures Readable(words, userId) ==> resp == Response(200, WordsBody(MatchingWords(words, userId)))
      ensures !Readable(words, userId) ==> resp == ServerError()
    {
      var rows := words;
      var matching: seq<string> := [];
      for i := 0 to |rows|
        invariant Readable(rows[..i], userId)
        invariant matching == MatchingWords(rows[..i], userId)
      {
        var row := rows[i];
        if |row| < 2 || (row[1] == userId && |row| < 3) {
          return ServerError();
        }
        assert rows[..i + 1] == rows[..i] + [row];
        assert [row][1..] == [];
        MatchingWordsAppend(rows[..i], [row], userId);
        if row[1] == userId {
          matching := matching + [row[2]];
        }
      }
      assert rows[..|rows|] == rows;
      return Response(200, WordsBody(matching));
    }

    /**
     * modify_sheet('add'): appends ["", userId, word] after every existing row;
     * the sheet keeps it as `Appended` reads it back.
     */
    method ModifySheetAdd(userId: string, word: string)
      modifies this`words
      ensures words == Appended(old(words), WordRow(userId, word))
    {
      words := Appended(words, ["", userId, word]);
    }

    /**
     * modify_sheet('delete'): structurally deletes the first row with at least
     * three cells whose columns B and C are `userId` and `word`.
     */
    method ModifySheetDelete(userId: string, word: string) returns (found: bool)
      modifies this`words
      ensures found <==> FindWord(old(words), userId, word).Some?
      ensures found ==> words == RemoveAt(old(words), FindWord(old(words), userId, word).value)
      ensures !found ==> words == old(words)
    {
      var rows := words;
      for i := 0 to |rows|
        invariant forall j :: 0 <= j < i ==> !WordMatches(rows[j], userId, word)
      {
        var row := rows[i];
        if |row| > 2 && row[1] == userId && row[2] == word {
          words := words[..i] + words[i + 1..];
          return true;
        }
      }
      return false;
    }

    /**
     * POST /add_word: appends the row; `updatedCells` is the count the remote
     * sheet reports for the append, and a zero count answers 500.
     */
    method AddWord(userId: string, word: string, updatedCells: nat) returns (resp: Response)
      modifies this`words
      ensures words == Appended(old(words), WordRow(userId, word))
      ensures updatedCells != 0 ==> resp == Response(200, AddedBody(updatedCells))
      ensures updatedCells == 0 ==> resp == Response(500, ResultBody("error"))
    {
      ModifySheetAdd(userId, word);
      if updatedCells != 0 {
        resp := Response(200, AddedBody(updatedCells));
      } else {
        resp := Response(500, ResultBody("error"));
      }
    }

    /** POST /delete_word: 200 when a row was deleted, 404 "word not found" otherwise. */
    method DeleteWord(userId: string, word: string) returns (resp: Response)
      modifies this`words
      ensures FindWord(old(words), userId, word).Some? ==>
                words == RemoveAt(old(words), FindWord(old(words), userId, word).value) &&
                resp == Response(200, ResultBody("success"))
      ensures FindWord(old(words), userId, word).None? ==>
                words == old(words) && resp == Response(404, ResultBody("word not found"))
    {
      var found := ModifySheetDelete(userId, word);
      if found {
        resp := Response(200, ResultBody("success"));
      } else {
        resp := Response(404, ResultBody("word not found"));
      }
    }
  }
}

=== FILE: wrappers.dfy ===
/** Optional values and results with an error, shared by the other modules. */
module Wrappers {

  /** A value that may be missing: a Python `None`, a pandas NaN cell, an absent request field. */
  datatype Option<+T> = None | Some(value: T)

  /** The outcome of an operation that can fail with an error of type E. */
  datatype Result<+T, +E> = Ok(value: T) | Err(error: E)
}
